=== FILE: README.md ===
# KookBC start-up, modelled in Dafny

This project models the start-up of the KookBC bot client: `Main.main`, `main0`,
`main1` and `saveKBCConfig` in `src/main/java/snw/kookbc/Main.java`. These methods decide
how the process exits and which client it runs. The inputs are the parsed command line,
the values read from `kbc.yml`, and a few facts about the working directory.

The model is a set of pure functions over an abstract world:

- `Maybe`: `Option` (where `None` stands for Java's `null`) and `Result`.
- `Files`: the working directory, a map from path to `RegularFile(content, readable)` or
  `Directory(readable)`. A path exists exactly when it is a key, so `isFile` and `canRead`
  imply `exists`, as they do for `java.io.File`.
- `Materialise`: `saveKBCConfig` (copy the bundled template to `kbc.yml` only when no
  entry of that name exists) and the creation of the `bot` data folder.
- `CaseFold`: `String.equalsIgnoreCase`, compared character by character as Java does.
- `Settings`: the parsed options, the `kbc.yml` keys, config loading, the per-field
  merge of token and bot file, and the ordered bot-file checks.
- `Lifecycle`: mode dispatch and the client protocol of `main1`. The protocol is a trace of
  events (create, register shutdown hook, start, loop or shutdown) that is checked against
  a small state machine.
- `Startup`: the whole `main0` pipeline (`Bootstrap`) and `main`'s exit status.

The filesystem is threaded through the pipeline in source order. The bot-file checks and
the config load therefore see the `kbc.yml` and `bot` entries that the start-up itself
has just created. The YAML reader is a parameter `yaml: Bytes -> Option<Config>`, where
`None` stands for an I/O or syntax error. The start-up reads `kbc.yml` only when it is a
readable regular file. Any other case, including a read failure, gives a configuration
with every key absent.

In these places the code behaves differently from what one might expect, and the model
follows the code:

- An empty token (`--token ""` with no usable token in `kbc.yml`) is not rejected.
  Only a `null` token ends the start-up (line 147).
- A missing bundled template is fatal. The `Error` escapes `main0`, and `main` exits
  with 1 even if `kbc.yml` already exists (lines 215-218, 44-49). Only an `IOException`
  while creating the file is logged and ignored.
- The mode is checked late, after the token and bot-file checks. An absent mode throws
  `IllegalArgumentException`, which `main` turns into exit 1 (lines 187-196, 44-49).
- A bot file given on the command line is kept even when it is unusable. It is checked
  only afterwards (lines 123, 156-167).

## Model

| member | source | states |
|---|---|---|
| Materialise.SaveKbcConfig | src/main/java/snw/kookbc/Main.java:214-235 | A missing template is an error whether or not kbc.yml exists. An existing kbc.yml, file or not, is left untouched. If creating the file fails, nothing changes. Otherwise kbc.yml becomes a readable copy of the template. No other path changes. |
| Materialise.SaveKbcConfigIdempotent | src/main/java/snw/kookbc/Main.java:214-235 | Running the materialisation on its own result gives the same result: it never overwrites. |
| Materialise.SaveKbcConfigEstablishesLocal | src/main/java/snw/kookbc/Main.java:220-231 | With a template, kbc.yml exists afterwards exactly when it existed before or could be created. |
| Materialise.EnsureDataFolder | src/main/java/snw/kookbc/Main.java:104-107 | Afterwards `bot` is a directory exactly when it already was one, or when nothing occupied the name and the directory is writable. An existing entry is never replaced, and when the directory is not writable nothing changes. No other path changes. |
| Materialise.EnsureDataFolderIdempotent | src/main/java/snw/kookbc/Main.java:104-107 | Creating the data folder twice is the same as creating it once. |
| CaseFold.EqualsIgnoreCase | src/main/java/snw/kookbc/Main.java:189 | `equalsIgnoreCase` compares character by character and never matches strings of different lengths. Its full meaning is stated by `EqualsIgnoreCasePositionwise`. |
| CaseFold.EqualsIgnoreCasePositionwise | src/main/java/snw/kookbc/Main.java:189 | The character-by-character recursive comparison holds exactly when the lengths are equal and every position matches under Java's ignore-case rule. |
| CaseFold.MatchesLowerLetter | src/main/java/snw/kookbc/Main.java:189 | A character matches a letter of "webhook" exactly when it is that letter or its upper-case form. For k, the Kelvin sign also matches. |
| Lifecycle.SelectVariant | src/main/java/snw/kookbc/Main.java:187-196 | An absent mode selects no client and is never defaulted. A present mode always selects a client. |
| Lifecycle.WebhookSelectedIff | src/main/java/snw/kookbc/Main.java:188-193 | The webhook client is chosen exactly for seven-character strings that match "webhook" at every position, ignoring case. Any other present mode selects the default client. |
| Lifecycle.ModeSpellings | src/main/java/snw/kookbc/Main.java:189-193 | "webhook", "WebHook", "WEBHOOK" and "webhoo" plus a Kelvin sign select the webhook client. "websocket", "webhooks" and "" select the default client. |
| Lifecycle.ReplayFromTerminal | src/main/java/snw/kookbc/Main.java:202-211 | After the loop returns or after shutdown following a failed start, the protocol allows no further client event. |
| Lifecycle.CompleteTraces | src/main/java/snw/kookbc/Main.java:190-211 | The protocol accepts exactly two complete traces: create, hook, successful start, loop; or create, hook, failed start, one shutdown. |
| Lifecycle.CompleteTraceShapes | src/main/java/snw/kookbc/Main.java:190-211 | Both of those traces take the protocol from no client to its finishing phase. |
| Lifecycle.CompleteTraceFacts | src/main/java/snw/kookbc/Main.java:200-211 | In every complete trace the shutdown hook is registered before the start. After a failed start, `main1` itself calls shutdown exactly once and never enters the loop. After a successful start, it enters the loop exactly once and never calls shutdown itself. The hook's own call at exit is not counted. |
| Lifecycle.RunClient | src/main/java/snw/kookbc/Main.java:184-211 | An absent mode throws before any client exists. Otherwise the trace is exactly: create the selected client, register the hook, start it with the validated bot file and token, then loop or shut down. That is a complete protocol run. The result is 0 exactly when the loop ran and 1 when the start failed. |
| Lifecycle.ShutdownOnlyAfterFailedStart | src/main/java/snw/kookbc/Main.java:200-211 | For every bot file, token and present mode, the client is started exactly once. `main1` itself calls shutdown exactly once after a failed start and never enters the loop. It never calls shutdown itself after a successful start. The hook is always registered before the start. The hook's own call at exit is not counted. |
| Settings.LoadConfig | src/main/java/snw/kookbc/Main.java:109-116 | Values come only from kbc.yml. If it is not a readable regular file, or does not parse, every key is absent. Otherwise the values are what the file holds. |
| Settings.MergeToken | src/main/java/snw/kookbc/Main.java:134-145 | The token comes from one of the two sources, and a non-empty command-line token is never overridden. The result is non-empty exactly when either source is. It is null exactly when the command line gave none and the file has no non-empty token. It is "" exactly when the command line gave "" and the file has nothing better. |
| Settings.MergeBotFile | src/main/java/snw/kookbc/Main.java:118-132 | A command-line bot file is always kept, even if unusable. Without one, the configured path is chosen exactly when it exists, is a regular file and is readable. A replacement is always usable. |
| Settings.CheckBotFile | src/main/java/snw/kookbc/Main.java:156-167 | The checks pass exactly for a present, usable path, which is passed on unchanged. Each failure is reported by the first failing check, in the order: not found, not a regular file, unreadable. |
| Settings.Resolve | src/main/java/snw/kookbc/Main.java:118-170 | A null token is reported first, exactly when the command line gave no token and the file no non-empty one. The start-up proceeds exactly when a token exists and a bot file is selectable. It proceeds with a usable bot file and the token chosen by precedence, which may be "". Any other failure is the first of the three bot-file checks that the merged bot file fails. |
| Settings.MergesIdempotent | src/main/java/snw/kookbc/Main.java:118-145 | Merging the result again with the same file values changes neither the token nor the bot file. |
| Startup.TerminalProperties | src/main/java/snw/kookbc/Main.java:91-99 | `terminal.jline` is set to "false" exactly for `--no-jline`, and `terminal.ansi` exactly for `--no-color`. No other property is set. |
| Startup.Prepare | src/main/java/snw/kookbc/Main.java:103-107 | Preparation fails exactly when the template is missing. On a first run with a writable directory, kbc.yml becomes a readable copy of the template. Afterwards `bot` is a directory exactly when it already was one, or when nothing occupied the name and the directory is writable. Existing entries survive unchanged, and only kbc.yml and the data folder may appear. When the directory is not writable, nothing changes at all. |
| Startup.HandOver | src/main/java/snw/kookbc/Main.java:170-211 | An exception escapes exactly when the mode is absent. The result is 0 exactly when the loop ran. Only the validated bot file is ever started. With a mode present, the trace is: create the client the mode selects, register the hook, start with the validated bot file and token, then loop or shut down. |
| Startup.Conclude | src/main/java/snw/kookbc/Main.java:147-211 | A rejection from the merge and the checks is returned as 1, with the directory left as prepared and no client. Otherwise an exception escapes exactly when the mode is absent. With a mode, the trace is: create the client the mode selects, register the hook, start it with the validated bot file and token, then loop or shut down. Only the validated bot file is ever started, and the result is 0 exactly when the loop ran. |
| Startup.Configure | src/main/java/snw/kookbc/Main.java:90-170 | The terminal properties are always set. A missing template throws before any client exists. Validation failures return 1 with no client. The client is started only with a usable bot file. When the template exists, the merge and checks pass and the loaded configuration has a mode, the trace is: create the client that mode selects, register the hook, start it with the merged bot file and token, then loop or shut down. The result is 0 exactly when the loop ran. |
| Startup.Bootstrap | src/main/java/snw/kookbc/Main.java:52-171 | A parse failure returns 1 and changes nothing. `--help` returns 0 before any file is written or read, any property is set or any client exists. Among the modelled command lines, an exception escapes only for a missing template or a missing mode. The result is 0 exactly for help or a loop that ran to its end. |
| Startup.StartedIff | src/main/java/snw/kookbc/Main.java:147-203 | The client is started exactly when the command line parsed without `--help`, the template exists, the token and bot file pass validation, and a mode is present. |
| Startup.StartedWithResolvedValues | src/main/java/snw/kookbc/Main.java:118-211 | Whenever the client is started, it is the client the configured mode selects. It is started with the bot file and token that the merge and validation chose, and then loops or is shut down. |
| Startup.ExitStatus | src/main/java/snw/kookbc/Main.java:43-49 | `main` turns every escaping throwable into exit 1, and exits with 0 only when `main0` returned 0. |
| Startup.ExitStatusIff | src/main/java/snw/kookbc/Main.java:43-49 | The process exits with 0 exactly after `--help` or after a successful start whose loop returned. Every other path exits with 1. |
| Startup.HelpIgnoresEverythingElse | src/main/java/snw/kookbc/Main.java:81-88 | With `--help` the outcome depends on nothing else: not the files, the template, the configuration or the client. The directory is left as it was. |
| Startup.DirectoryAfterStartup | src/main/java/snw/kookbc/Main.java:103-107 | Past the help check, the start-up leaves the directory untouched when the template is missing, because the error comes before anything is written. Otherwise it leaves the prepared directory, whatever happens afterwards. |
| Startup.RejectionReported | src/main/java/snw/kookbc/Main.java:147-167 | A validation failure ends the start-up as exactly the rejection that the merge and the checks produce, so the order of the bot-file checks reaches the outcome. It exits 1 with no client. |
| Startup.TokenCheckedFirst | src/main/java/snw/kookbc/Main.java:147-150 | A null effective token exits 1 with no client, whatever the bot file and the mode. |
| Startup.ModeCheckedLast | src/main/java/snw/kookbc/Main.java:187-196 | The unknown-mode failure happens exactly when the token and bot file passed and the mode is absent. It exits 1 with no client. |
| Startup.FailedWriteReadsNothing | src/main/java/snw/kookbc/Main.java:103-114 | On a first run where kbc.yml cannot be created, loading finds no file, so every configuration key is absent. |
| Startup.FirstRunReadsTemplate | src/main/java/snw/kookbc/Main.java:103-116 | On a first run with a writable directory, the configuration read is the one the template holds. |
| Startup.FileAloneSuffices | src/main/java/snw/kookbc/Main.java:118-170 | With no arguments and a kbc.yml holding a non-empty token, a usable bot file and a mode, the client is started with the file's bot file and token. |
| Startup.MissingConfiguredBotFileRejected | src/main/java/snw/kookbc/Main.java:118-159 | Without a command-line bot file, a configured bot file that does not exist is never selected. Once a token exists, the start-up exits 1 with "not found". |

## Left out

- Startup.Bootstrap: a command line that repeats `--token` or `--bot-file` parses, but
  `valueOf` then throws `OptionException` at line 90 or 101. That exception escapes to
  `main`, which exits with 1. `Options` holds one value per option, so such command lines
  are modelled as `Malformed`, which gives the same exit status. For a repeated
  `--bot-file`, the source sets the terminal properties first; the model does not.
- Argument parsing (joptsimple) and help-text printing. The command line is given as
  `Malformed` or the parsed option values. Lines 77-79 re-parse an empty argument list
  when no option was given; this yields the same all-absent values, so it is not modelled.
- Logging, including the `allow-help-ad` advisory (lines 152-154) and the system-information
  dump (lines 174-182). They only write to the log.
- Thread naming (line 53), `CoreImpl` construction, `JKook.setCore` and
  `KBCClient.setInstance` (lines 184-185, 197). They only set state in collaborators
  that are not part of this model.
- The YAML format. `YamlConfiguration` is replaced by the `yaml` parameter. `getString`
  on a non-string value is not modelled: config values are optional strings.
- The byte-copy loop and partial writes in `saveKBCConfig`. The copy is modelled as
  "kbc.yml := template". An `IOException` is modelled by `canWrite = false`, which leaves
  the directory unchanged. The new file is assumed readable.
- The same `canWrite` flag decides whether `mkdir` succeeds. Other `mkdir` failures are
  not modelled.
- Path names are plain strings. There is no canonicalisation, so "./kbc.yml" and "kbc.yml"
  are different paths.
- Unicode case mapping outside the ASCII letters and the Kelvin sign.
  `CaseFold.ToUpper` and `CaseFold.ToLower` map every other character to itself.
  In Java, 'ſ' (U+017F) also matches 's', and 'ı' (U+0131) and 'İ' (U+0130) match 'i'.
  Neither letter occurs in "webhook", so mode dispatch is unaffected.
- The shutdown hook running at JVM exit, the concurrency between that hook and the loop,
  and the idempotence of `KBCClient.shutdown`. `KBCClient` is not part of this model.
  Registration of the hook is recorded as an event.
- What happens inside `start`, `loop` and `shutdown`, including exceptions thrown by `loop`
  or `shutdown`. `start` is a single `startSucceeds` flag, and `loop` is taken to return.

=== FILE: casefold.dfy ===
/** Java's `String.equalsIgnoreCase`, used to recognise the network mode.
    Characters are compared one by one: equal, equal after upper-casing, or equal after
    upper- then lower-casing. Case mappings cover the ASCII letters and the Kelvin sign,
    whose lower-case form is the ASCII letter k. */
module CaseFold {

  /** KELVIN SIGN, U+212A: upper-case already, lower-cases to 'k'. */
  const KelvinSign: char := '\U{212A}'

  /** `Character.toUpperCase` on the modelled characters. */
  function ToUpper(c: char): char {
    if 'a' <= c <= 'z' then (c as int - 32) as char else c
  }

  /** `Character.toLowerCase` on the modelled characters. */
  function ToLower(c: char): char {
    if 'A' <= c <= 'Z' then (c as int + 32) as char
    else if c == KelvinSign then 'k'
    else c
  }

  /** The per-character rule of `String.regionMatches(true, ...)`. */
  predicate CharEqualsIgnoreCase(a: char, b: char) {
    || a == b
    || ToUpper(a) == ToUpper(b)
    || ToLower(ToUpper(a)) == ToLower(ToUpper(b))
  }

  /** `a.equalsIgnoreCase(b)` for non-null `b`: equal lengths and every position matches. */
  function EqualsIgnoreCase(a: string, b: string): (r: bool)
    // strings of different lengths never match
    ensures r ==> |a| == |b|
    decreases |a|
  {
    |a| == |b| && (|a| == 0 || (CharEqualsIgnoreCase(a[0], b[0]) && EqualsIgnoreCase(a[1..], b[1..])))
  }

  /** The recursive comparison agrees with the position-wise definition. */
  lemma {:induction false} EqualsIgnoreCasePositionwise(a: string, b: string)
    ensures EqualsIgnoreCase(a, b)
            <==> |a| == |b| && forall i :: 0 <= i < |a| ==> CharEqualsIgnoreCase(a[i], b[i])
    decreases |a|
  {
    if |a| == |b| && |a| > 0 {
      EqualsIgnoreCasePositionwise(a[1..], b[1..]);
      assert forall i :: 0 < i < |a| ==> a[1..][i - 1] == a[i] && b[1..][i - 1] == b[i];
    }
  }

  /** A character matches a letter of "webhook" exactly when it is that letter, its
      upper-case form, or (for k) the Kelvin sign. */
  lemma MatchesLowerLetter(c: char, l: char)
    requires l in "webhook"
    ensures CharEqualsIgnoreCase(c, l)
            <==> c == l || c == ToUpper(l) || (l == 'k' && c == KelvinSign)
  {
  }
}

=== FILE: files.dfy ===
/** An abstract working directory: the paths that exist and what each one names. */
module Files {

  newtype byte = x: int | 0 <= x < 256

  type Bytes = seq<byte>

  /** What an existing path names: a regular file with its bytes, or a directory
      (which also stands for any other entry that is not a regular file). */
  datatype Node =
    | RegularFile(content: Bytes, readable: bool)
    | Directory(readable: bool)

  /** Every path that exists, mapped to what it names. */
  type FileSystem = map<string, Node>

  /** The local configuration file, relative to the working directory. */
  const KbcLocal: string := "kbc.yml"

  /** The folder handed to the client for bot data. */
  const BotDataFolder: string := "bot"

  /** `File.exists()` */
  predicate Exists(fs: FileSystem, path: string) {
    path in fs
  }

  /** `File.isFile()`: false for anything that does not exist. */
  predicate IsFile(fs: FileSystem, path: string) {
    path in fs && fs[path].RegularFile?
  }

  /** `File.isDirectory()`: false for anything that does not exist. */
  predicate IsDirectory(fs: FileSystem, path: string) {
    path in fs && fs[path].Directory?
  }

  /** `File.canRead()`: false for anything that does not exist. */
  predicate CanRead(fs: FileSystem, path: string) {
    path in fs && fs[path].readable
  }

  /** The three checks the start-up applies to a bot file. */
  predicate Usable(fs: FileSystem, path: string) {
    Exists(fs, path) && IsFile(fs, path) && CanRead(fs, path)
  }
}

=== FILE: lifecycle.dfy ===
/** Mode dispatch and the client protocol of `main1`: construct, register the shutdown
    hook, start, then either enter the loop or shut down. */
module Lifecycle {
  import opened Maybe
  import opened CaseFold

  /** `WebHookClient` or the default `KBCClient`. */
  datatype Variant = Webhook | Default

  /** What the start-up does to the client, in order. `succeeded` is whether `start`
      returned normally. */
  datatype Event =
    | CreateClient(variant: Variant)
    | RegisterShutdownHook
    | Start(botFile: string, token: string, succeeded: bool)
    | Shutdown
    | Loop

  /** How `main1` ends: it returns an exit code, or the unknown-mode exception escapes. */
  datatype Completion = Return(code: int) | Throw

  /** What `main1` did to the client and how it ended. */
  datatype ClientRun = ClientRun(completion: Completion, events: seq<Event>)

  /** The network mode value that selects the webhook client. */
  const WebhookMode: string := "webhook"

  /** Chooses the client for the `mode` key of `kbc.yml`; an absent mode chooses nothing. */
  function SelectVariant(mode: Option<string>): (v: Option<Variant>)
    // an absent mode is never defaulted, a present one always selects a client
    ensures v.None? <==> mode.None?
  {
    match mode
    case None => None
    case Some(m) => Some(if EqualsIgnoreCase(m, WebhookMode) then Webhook else Default)
  }

  /** The webhook client is chosen exactly for the seven-letter spellings of "webhook"
      in any mix of cases (the Kelvin sign counting as a k); any other present mode
      chooses the default client. */
  lemma WebhookSelectedIff(m: string)
    ensures SelectVariant(Some(m)) == Some(Webhook)
            <==> |m| == |WebhookMode|
                 && forall i :: 0 <= i < |m| ==> CharEqualsIgnoreCase(m[i], WebhookMode[i])
    ensures SelectVariant(Some(m)) == Some(Default) <==> SelectVariant(Some(m)) != Some(Webhook)
  {
    EqualsIgnoreCasePositionwise(m, WebhookMode);
  }

  /** Sample spellings, including the Kelvin sign in place of the final k. */
  lemma ModeSpellings()
    ensures SelectVariant(Some("webhook")) == Some(Webhook)
    ensures SelectVariant(Some("WebHook")) == Some(Webhook)
    ensures SelectVariant(Some("WEBHOOK")) == Some(Webhook)
    ensures SelectVariant(Some("webhoo" + [KelvinSign])) == Some(Webhook)
    ensures SelectVariant(Some("websocket")) == Some(Default)
    ensures SelectVariant(Some("webhooks")) == Some(Default)
    ensures SelectVariant(Some("")) == Some(Default)
  {
    WebhookSelectedIff("webhook");
    WebhookSelectedIff("WebHook");
    WebhookSelectedIff("WEBHOOK");
    WebhookSelectedIff("webhoo" + [KelvinSign]);
    assert !CharEqualsIgnoreCase("websocket"[3], WebhookMode[3]);
  }

  /** Where the client stands in its start-up protocol. */
  datatype Phase =
    | Idle           // no client yet
    | Constructed    // client created
    | Hooked         // shutdown hook registered
    | Started        // start returned normally
    | FailedToStart    // start threw
    | LoopReturned   // the loop ran to its end: exit 0
    | CleanedUp      // shutdown after a failed start: exit 1

  /** The protocol's transitions; `None` for an event not allowed in a phase. */
  function Step(p: Phase, e: Event): Option<Phase> {
    match (p, e)
    case (Idle, CreateClient(_)) => Some(Constructed)
    case (Constructed, RegisterShutdownHook) => Some(Hooked)
    case (Hooked, Start(_, _, ok)) => Some(if ok then Started else FailedToStart)
    case (Started, Loop) => Some(LoopReturned)
    case (FailedToStart, Shutdown) => Some(CleanedUp)
    case _ => None
  }

  /** The phase reached by replaying `events` from `p`, if the protocol allows them. */
  function Replay(p: Phase, events: seq<Event>): Option<Phase>
    decreases |events|
  {
    if events == [] then Some(p)
    else
      match Step(p, events[0])
      case None => None
      case Some(q) => Replay(q, events[1..])
  }

  /** A phase in which the start-up is over. */
  predicate Terminal(p: Phase) {
    p == LoopReturned || p == CleanedUp
  }

  /** Nothing is allowed once the start-up is over. */
  lemma ReplayFromTerminal(p: Phase, events: seq<Event>)
    requires Terminal(p) && Replay(p, events).Some?
    ensures events == []
  {
  }

  /** Every trace the protocol takes from no client to a finished start-up is one of two:
      create, hook, a successful start and the loop; or create, hook, a failed start and
      a single shutdown. */
  lemma {:induction false} CompleteTraces(events: seq<Event>)
    requires Replay(Idle, events).Some? && Terminal(Replay(Idle, events).value)
    ensures |events| == 4
    ensures events[0].CreateClient? && events[1] == RegisterShutdownHook && events[2].Start?
    ensures events[2].succeeded ==> events[3] == Loop && Replay(Idle, events) == Some(LoopReturned)
    ensures !events[2].succeeded ==> events[3] == Shutdown && Replay(Idle, events) == Some(CleanedUp)
  {
    var e1 := events[1..];
    assert events[0].CreateClient? && Replay(Idle, events) == Replay(Constructed, e1);
    var e2 := e1[1..];
    assert e1[0] == RegisterShutdownHook && Replay(Constructed, e1) == Replay(Hooked, e2);
    var e3 := e2[1..];
    var s := if e2[0].Start? && e2[0].succeeded then Started else FailedToStart;
    assert e2[0].Start? && Replay(Hooked, e2) == Replay(s, e3);
    var e4 := e3[1..];
    var t := if s == Started then LoopReturned else CleanedUp;
    assert e3[0] == (if s == Started then Loop else Shutdown) && Replay(s, e3) == Replay(t, e4);
    ReplayFromTerminal(t, e4);
  }

  /** The two complete traces are indeed complete. */
  lemma CompleteTraceShapes(v: Variant, botFile: string, token: string, ok: bool)
    ensures Replay(Idle, [CreateClient(v), RegisterShutdownHook, Start(botFile, token, ok),
                          if ok then Loop else Shutdown])
            == Some(if ok then LoopReturned else CleanedUp)
  {
    var last := if ok then Loop else Shutdown;
    var s := if ok then Started else FailedToStart;
    var t := if ok then LoopReturned else CleanedUp;
    assert Replay(t, []) == Some(t);
    assert Replay(s, [last]) == Replay(t, []);
    assert Replay(Hooked, [Start(botFile, token, ok), last]) == Replay(s, [last]);
    assert Replay(Constructed, [RegisterShutdownHook, Start(botFile, token, ok), last])
           == Replay(Hooked, [Start(botFile, token, ok), last]);
  }

  /** Consequences for any finished trace: the hook comes before the start, and a failed
      start is followed by exactly one shutdown and never by the loop. */
  lemma CompleteTraceFacts(events: seq<Event>)
    requires Replay(Idle, events).Some? && Terminal(Replay(Idle, events).value)
    ensures forall j :: 0 <= j < |events| && events[j].Start? ==> RegisterShutdownHook in events[..j]
    ensures Replay(Idle, events) == Some(CleanedUp)
            ==> multiset(events)[Shutdown] == 1 && Loop !in events
    ensures Replay(Idle, events) == Some(LoopReturned)
            ==> multiset(events)[Loop] == 1 && Shutdown !in events
  {
    CompleteTraces(events);
    assert events == [events[0], events[1], events[2], events[3]];
    assert events[..2] == [events[0], events[1]];
  }

  /** `main1` after the system-information logging: picks the client by mode (an absent
      mode throws before any client exists), registers the shutdown hook, starts the
      client, and either loops (exit 0) or shuts down once (exit 1). */
  function RunClient(botFile: string, token: string, mode: Option<string>, startSucceeds: bool)
    : (r: ClientRun)
    // an absent mode escapes as an exception and no client is created
    ensures mode.None? <==> r.completion == Throw
    ensures mode.None? ==> r.events == []
    // otherwise the trace is a complete run of the protocol
    ensures mode.Some? ==> Replay(Idle, r.events)
                             == Some(if startSucceeds then LoopReturned else CleanedUp)
    // the client the mode selects, started once with the validated values, in this order
    ensures mode.Some? ==> CreateClient(SelectVariant(mode).value) in r.events
    ensures mode.Some? ==> r.events == [CreateClient(SelectVariant(mode).value), RegisterShutdownHook,
                                        Start(botFile, token, startSucceeds),
                                        if startSucceeds then Loop else Shutdown]
    // exit 0 exactly when the loop ran, 1 when the start failed
    ensures r.completion == Return(0) <==> mode.Some? && startSucceeds
    ensures r.completion == Return(0) <==> Loop in r.events
    ensures mode.Some? && !startSucceeds ==> r.completion == Return(1)
  {
    match SelectVariant(mode)
    case None => ClientRun(Throw, [])
    case Some(v) =>
      var begun := [CreateClient(v), RegisterShutdownHook, Start(botFile, token, startSucceeds)];
      CompleteTraceShapes(v, botFile, token, startSucceeds);
      if startSucceeds then
        assert begun + [Loop] == [CreateClient(v), RegisterShutdownHook, Start(botFile, token, true), Loop];
        ClientRun(Return(0), begun + [Loop])
      else
        assert begun + [Shutdown] == [CreateClient(v), RegisterShutdownHook, Start(botFile, token, false), Shutdown];
        ClientRun(Return(1), begun + [Shutdown])
  }

  /** The client is started exactly once. A failed start leads to exactly one shutdown and
      never to the loop; a successful one to the loop and no shutdown from the start-up itself. */
  lemma ShutdownOnlyAfterFailedStart(botFile: string, token: string, mode: string, startSucceeds: bool)
    ensures var r := RunClient(botFile, token, Some(mode), startSucceeds);
            && multiset(r.events)[Start(botFile, token, startSucceeds)] == 1
            && (!startSucceeds ==> multiset(r.events)[Shutdown] == 1 && Loop !in r.events)
            && (startSucceeds ==> Shutdown !in r.events)
            && forall j :: 0 <= j < |r.events| && r.events[j].Start? ==> RegisterShutdownHook in r.events[..j]
  {
    CompleteTraceFacts(RunClient(botFile, token, Some(mode), startSucceeds).events);
  }
}

=== FILE: materialise.dfy ===
/** First-run materialisation of `kbc.yml` and creation of the bot data folder. */
module Materialise {
  import opened Maybe
  import opened Files

  /** The bundled template `/kbc.yml` is not on the class path; the source throws an
      `Error` for it, which no `IOException` handler catches. */
  datatype MissingTemplate = MissingTemplate

  /** `saveKBCConfig`: copies the bundled template to `kbc.yml` when no entry of that
      name exists. `canWrite` is false when creating the file fails with an
      `IOException`, which is logged and ignored. */
  function SaveKbcConfig(fs: FileSystem, template: Option<Bytes>, canWrite: bool)
    : (r: Result<FileSystem, MissingTemplate>)
    // a missing template is fatal, whether or not kbc.yml already exists
    ensures r.Err? <==> template.None?
    // an existing entry named kbc.yml, file or not, is never touched
    ensures r.Ok? && Exists(fs, KbcLocal) ==> r.value == fs
    // a failed creation leaves the directory as it was
    ensures r.Ok? && !canWrite ==> r.value == fs
    // on first run kbc.yml becomes a readable copy of the template
    ensures r.Ok? && !Exists(fs, KbcLocal) && canWrite ==>
              KbcLocal in r.value && r.value[KbcLocal] == RegularFile(template.value, true)
    // no other path is created, removed or changed
    ensures r.Ok? ==> r.value.Keys <= fs.Keys + {KbcLocal}
    ensures r.Ok? ==> forall p :: p in fs ==> p in r.value && r.value[p] == fs[p]
  {
    match template
    case None => Err(MissingTemplate)
    case Some(bytes) =>
      if Exists(fs, KbcLocal) || !canWrite then Ok(fs)
      else Ok(fs[KbcLocal := RegularFile(bytes, true)])
  }

  /** Running the materialisation on its own result changes nothing. */
  lemma SaveKbcConfigIdempotent(fs: FileSystem, template: Option<Bytes>, canWrite: bool)
    requires SaveKbcConfig(fs, template, canWrite).Ok?
    ensures SaveKbcConfig(SaveKbcConfig(fs, template, canWrite).value, template, canWrite)
            == SaveKbcConfig(fs, template, canWrite)
  {
  }

  /** After the materialisation kbc.yml exists unless creating it failed. */
  lemma SaveKbcConfigEstablishesLocal(fs: FileSystem, template: Option<Bytes>, canWrite: bool)
    requires template.Some?
    ensures Exists(SaveKbcConfig(fs, template, canWrite).value, KbcLocal)
            <==> Exists(fs, KbcLocal) || canWrite
  {
  }

  /** Creates the bot data folder unless a directory is already there. `mkdir` fails
      silently when another entry occupies the name or the directory is not writable. */
  function EnsureDataFolder(fs: FileSystem, canWrite: bool): (fs': FileSystem)
    // the folder is a directory afterwards exactly when it was one or could be made
    ensures IsDirectory(fs', BotDataFolder)
            <==> IsDirectory(fs, BotDataFolder) || (!Exists(fs, BotDataFolder) && canWrite)
    // an existing entry of that name is never replaced
    ensures Exists(fs, BotDataFolder) ==> fs' == fs
    // a failed mkdir leaves the directory as it was
    ensures !canWrite ==> fs' == fs
    // no other path is created, removed or changed
    ensures fs'.Keys <= fs.Keys + {BotDataFolder}
    ensures forall p :: p in fs ==> p in fs' && fs'[p] == fs[p]
  {
    if IsDirectory(fs, BotDataFolder) then fs
    else if Exists(fs, BotDataFolder) || !canWrite then fs
    else fs[BotDataFolder := Directory(true)]
  }

  /** Creating the data folder twice is the same as creating it once. */
  lemma EnsureDataFolderIdempotent(fs: FileSystem, canWrite: bool)
    ensures EnsureDataFolder(EnsureDataFolder(fs, canWrite), canWrite)
            == EnsureDataFolder(fs, canWrite)
  {
  }
}

=== FILE: maybe.dfy ===
/** Optional and failure-carrying values shared by every module of the model. */
module Maybe {

  /** An optional value; `None` stands for Java's `null`. */
  datatype Option<T> = None | Some(value: T) {

    /** The value, or `default` when there is none. */
    function GetOr(default: T): T {
      match this
      case Some(v) => v
      case None => default
    }
  }

  /** The result of a step that either yields a value or stops with an error. */
  datatype Result<T, E> = Ok(value: T) | Err(error: E)
}

=== FILE: settings.dfy ===
/** Merging the command line with `kbc.yml`, and validating the result (`main0`). */
module Settings {
  import opened Maybe
  import opened Files

  /** The parsed command line; absent values are the options' `null` values
      (`--token` and `--bot-file` take optional arguments). */
  datatype Options = Options(
    botFile: Option<string>,
    token: Option<string>,
    noJline: bool,
    noColor: bool,
    help: bool)

  /** The argument parser either rejects the arguments or yields the options. */
  datatype CommandLine = Malformed | Parsed(options: Options)

  /** The keys of `kbc.yml` the start-up reads as strings. */
  datatype Config = Config(botFile: Option<string>, token: Option<string>, mode: Option<string>)

  /** A configuration nothing was loaded into. */
  const EmptyConfig: Config := Config(None, None, None)

  /** Why the start-up ends with exit code 1 before the client is constructed. */
  datatype Rejection = NoToken | BotFileNotFound | BotFileNotAFile | BotFileUnreadable

  /** The validated bot file and token handed to the client. */
  datatype Launch = Launch(botFile: string, token: string)

  /** A value that is present and not the empty string. */
  predicate NonEmpty(s: Option<string>) {
    s.Some? && s.value != ""
  }

  /** Loads `kbc.yml` with the YAML reader `yaml`, which answers `None` for an I/O or
      syntax error. A missing, non-regular or unreadable file cannot be opened
      (`FileNotFoundException`, ignored); every failure leaves all keys absent. */
  function LoadConfig(fs: FileSystem, yaml: Bytes -> Option<Config>): (c: Config)
    // values come from kbc.yml alone: no readable kbc.yml, no values
    ensures !(IsFile(fs, KbcLocal) && CanRead(fs, KbcLocal)) ==> c == EmptyConfig
    // a readable kbc.yml that parses contributes exactly what it holds
    ensures IsFile(fs, KbcLocal) && CanRead(fs, KbcLocal) && yaml(fs[KbcLocal].content).Some?
            ==> c == yaml(fs[KbcLocal].content).value
    // one that does not parse contributes nothing
    ensures IsFile(fs, KbcLocal) && yaml(fs[KbcLocal].content).None? ==> c == EmptyConfig
  {
    if IsFile(fs, KbcLocal) && CanRead(fs, KbcLocal) then yaml(fs[KbcLocal].content).GetOr(EmptyConfig)
    else EmptyConfig
  }

  /** The effective token: the command line's unless it is absent or empty and the
      file's is present and non-empty. */
  function MergeToken(cli: Option<string>, file: Option<string>): (t: Option<string>)
    // the token always comes from one of the two sources
    ensures t == cli || t == file
    // a non-empty command-line token is never overridden
    ensures NonEmpty(cli) ==> t == cli
    // the result is usable exactly when some source is
    ensures NonEmpty(t) <==> NonEmpty(cli) || NonEmpty(file)
    // the token is null only when the command line gave none and the file nothing usable
    ensures t.None? <==> cli.None? && !NonEmpty(file)
    // an empty command-line token survives when the file has nothing better
    ensures t == Some("") <==> cli == Some("") && !NonEmpty(file)
  {
    if NonEmpty(file) && !NonEmpty(cli) then file else cli
  }

  /** The effective bot file: the command line's whenever given, checked or not; otherwise
      the file's, but only when it passes all three checks. */
  function MergeBotFile(cli: Option<string>, file: Option<string>, fs: FileSystem)
    : (b: Option<string>)
    // the bot file always comes from one of the two sources
    ensures b == cli || b == file
    // a command-line bot file is kept even when it is unusable
    ensures cli.Some? ==> b == cli
    // without one, a file is chosen exactly when the configured path is usable
    ensures cli.None? ==> (b.Some? <==> file.Some? && Usable(fs, file.value))
    // the configured path never replaces the command line's with a bad path
    ensures b != cli ==> b.Some? && Usable(fs, b.value)
  {
    if cli.None? && file.Some? && Usable(fs, file.value) then file else cli
  }

  /** The bot-file checks, in order: found, a regular file, readable. */
  function CheckBotFile(fs: FileSystem, b: Option<string>): (r: Result<string, Rejection>)
    // the checks pass exactly for a usable path, which is passed on unchanged
    ensures r.Ok? <==> b.Some? && Usable(fs, b.value)
    ensures r.Ok? ==> r.value == b.value
    // each failure is reported by the first check that fails
    ensures r == Err(BotFileNotFound) <==> b.None? || !Exists(fs, b.value)
    ensures r == Err(BotFileNotAFile) <==> b.Some? && Exists(fs, b.value) && !IsFile(fs, b.value)
    ensures r == Err(BotFileUnreadable) <==> b.Some? && IsFile(fs, b.value) && !CanRead(fs, b.value)
    ensures r.Err? ==> r.error != NoToken
  {
    if b.None? || !Exists(fs, b.value) then Err(BotFileNotFound)
    else if !IsFile(fs, b.value) then Err(BotFileNotAFile)
    else if !CanRead(fs, b.value) then Err(BotFileUnreadable)
    else Ok(b.value)
  }

  /** A bot file is selectable when the command line names a usable one, or names none
      and the configuration names a usable one. */
  predicate BotFileSelectable(cli: Option<string>, file: Option<string>, fs: FileSystem) {
    || (cli.Some? && Usable(fs, cli.value))
    || (cli.None? && file.Some? && Usable(fs, file.value))
  }

  /** Merges the two sources and validates the result: the token first, then the bot file. */
  function Resolve(options: Options, config: Config, fs: FileSystem): (r: Result<Launch, Rejection>)
    // a null token is reported first, however bad the bot file is
    ensures r == Err(NoToken) <==> options.token.None? && !NonEmpty(config.token)
    // any other failure is the first bot-file check the merged bot file fails
    ensures r.Err? && r.error != NoToken
            ==> CheckBotFile(fs, MergeBotFile(options.botFile, config.botFile, fs)) == Err(r.error)
    // the start-up proceeds exactly when a token exists and a bot file is selectable
    ensures r.Ok? <==> (options.token.Some? || NonEmpty(config.token))
                       && BotFileSelectable(options.botFile, config.botFile, fs)
    // what proceeds is a usable bot file and the token by precedence
    ensures r.Ok? ==> Usable(fs, r.value.botFile)
    ensures r.Ok? && options.botFile.Some? ==> r.value.botFile == options.botFile.value
    ensures r.Ok? && options.botFile.None? ==> config.botFile == Some(r.value.botFile)
    ensures r.Ok? && NonEmpty(options.token) ==> r.value.token == options.token.value
    ensures r.Ok? && !NonEmpty(options.token) && NonEmpty(config.token)
            ==> r.value.token == config.token.value
    ensures r.Ok? && !NonEmpty(options.token) && !NonEmpty(config.token) ==> r.value.token == ""
  {
    var botFile := MergeBotFile(options.botFile, config.botFile, fs);
    var token := MergeToken(options.token, config.token);
    if token.None? then Err(NoToken)
    else
      match CheckBotFile(fs, botFile)
      case Err(e) => Err(e)
      case Ok(path) => Ok(Launch(path, token.value))
  }

  /** Merging twice with the same file values changes nothing further. */
  lemma MergesIdempotent(options: Options, config: Config, fs: FileSystem)
    ensures MergeToken(MergeToken(options.token, config.token), config.token)
            == MergeToken(options.token, config.token)
    ensures MergeBotFile(MergeBotFile(options.botFile, config.botFile, fs), config.botFile, fs)
            == MergeBotFile(options.botFile, config.botFile, fs)
  {
  }
}

=== FILE: startup.dfy ===
/** The whole start-up of the process (`main` and `main0`): parse, help, materialise,
    load, merge, validate, then hand over to the client protocol. */
module Startup {
  import opened Maybe
  import opened Files
  import opened Materialise
  import opened Settings
  import opened Lifecycle

  /** Everything outside the start-up logic that decides its course. */
  datatype World = World(
    commandLine: CommandLine,     // what the argument parser made of the arguments
    fs: FileSystem,               // the working directory before the start-up
    template: Option<Bytes>,      // the bundled `/kbc.yml` resource, if on the class path
    canWrite: bool,               // whether kbc.yml and the data folder can be created
    startSucceeds: bool)          // whether the client's `start` returns normally

  /** Why the start-up ended. */
  datatype Reason =
    | HelpPrinted
    | BadArguments
    | TemplateMissing
    | Rejected(rejection: Rejection)
    | UnknownMode
    | StartFailed
    | LoopEnded

  /** What one start-up did: how `main0` ended, why, the working directory it left,
      the system properties it set and what it did to the client. */
  datatype Run = Run(
    completion: Completion,
    reason: Reason,
    fs: FileSystem,
    properties: map<string, string>,
    events: seq<Event>)

  /** The system properties `--no-jline` and `--no-color` turn off. */
  const JlineProperty: string := "terminal.jline"
  const AnsiProperty: string := "terminal.ansi"

  /** The system properties set for the terminal flags. */
  function TerminalProperties(options: Options): (props: map<string, string>)
    ensures JlineProperty in props <==> options.noJline
    ensures AnsiProperty in props <==> options.noColor
    ensures props.Keys <= {JlineProperty, AnsiProperty}
    ensures forall k :: k in props ==> props[k] == "false"
  {
    var jline := if options.noJline then map[JlineProperty := "false"] else map[];
    var ansi := if options.noColor then map[AnsiProperty := "false"] else map[];
    jline + ansi
  }

  /** The working directory after `saveKBCConfig` and the creation of the data folder. */
  function Prepare(w: World): (r: Result<FileSystem, MissingTemplate>)
    ensures r.Err? <==> w.template.None?
    // existing entries survive unchanged; only kbc.yml and the data folder may appear
    ensures r.Ok? ==> forall p :: p in w.fs ==> p in r.value && r.value[p] == w.fs[p]
    ensures r.Ok? ==> r.value.Keys <= w.fs.Keys + {KbcLocal, BotDataFolder}
    // when nothing can be written, the directory is left as it was
    ensures r.Ok? && !w.canWrite ==> r.value == w.fs
    // on a first run with a writable directory kbc.yml becomes a readable copy of the template
    ensures r.Ok? && !Exists(w.fs, KbcLocal) && w.canWrite
            ==> KbcLocal in r.value && r.value[KbcLocal] == RegularFile(w.template.value, true)
    // the data folder is a directory exactly when it was one or could be created
    ensures r.Ok? ==> (IsDirectory(r.value, BotDataFolder)
                       <==> IsDirectory(w.fs, BotDataFolder) || (!Exists(w.fs, BotDataFolder) && w.canWrite))
  {
    match SaveKbcConfig(w.fs, w.template, w.canWrite)
    case Err(e) => Err(e)
    case Ok(fs1) => Ok(EnsureDataFolder(fs1, w.canWrite))
  }

  /** The hand-over to the client once the token and bot file have passed. */
  function HandOver(launch: Launch, mode: Option<string>, fs: FileSystem,
                    props: map<string, string>, startSucceeds: bool): (r: Run)
    ensures r.fs == fs && r.properties == props
    ensures r.completion == Throw <==> r.reason == UnknownMode
    ensures r.reason == UnknownMode <==> mode.None?
    ensures forall e :: e in r.events && e.Start? ==> e.botFile == launch.botFile
    ensures r.reason == LoopEnded <==> Loop in r.events
    ensures r.completion == Return(0) <==> r.reason == LoopEnded
    ensures r.reason in {UnknownMode, LoopEnded, StartFailed}
    ensures r.completion.Return? ==> r.completion.code == 0 || r.completion.code == 1
    // with a mode, the client chosen by the mode is started with the validated values
    ensures mode.Some? ==> r.events == [CreateClient(SelectVariant(mode).value), RegisterShutdownHook,
                                        Start(launch.botFile, launch.token, startSucceeds),
                                        if startSucceeds then Loop else Shutdown]
  {
    var client := RunClient(launch.botFile, launch.token, mode, startSucceeds);
    var reason := if client.completion == Throw then UnknownMode
                  else if startSucceeds then LoopEnded
                  else StartFailed;
    Run(client.completion, reason, fs, props, client.events)
  }

  /** `main0` after the merge and the checks: report a rejection, or hand over. */
  function Conclude(resolved: Result<Launch, Rejection>, mode: Option<string>, fs: FileSystem,
                    props: map<string, string>, startSucceeds: bool): (r: Run)
    ensures r.fs == fs && r.properties == props
    ensures r.completion == Throw <==> r.reason == UnknownMode
    ensures resolved.Err? <==> r.reason.Rejected?
    ensures resolved.Err? ==> r == Run(Return(1), Rejected(resolved.error), fs, props, [])
    // past the checks, the unknown-mode exception comes exactly from an absent mode
    ensures resolved.Ok? ==> (r.reason == UnknownMode <==> mode.None?)
    // with a mode, the selected client is started with the validated values
    ensures resolved.Ok? && mode.Some?
            ==> r.events == [CreateClient(SelectVariant(mode).value), RegisterShutdownHook,
                             Start(resolved.value.botFile, resolved.value.token, startSucceeds),
                             if startSucceeds then Loop else Shutdown]
    ensures r.reason != TemplateMissing && r.reason != HelpPrinted && r.reason != BadArguments
    // only the validated bot file is ever started
    ensures forall e :: e in r.events && e.Start? ==> resolved.Ok? && e.botFile == resolved.value.botFile
    ensures r.completion == Return(0) <==> r.reason == LoopEnded
    ensures r.reason == LoopEnded <==> Loop in r.events
    ensures r.completion.Return? ==> r.completion.code == 0 || r.completion.code == 1
  {
    match resolved
    case Err(rejection) => Run(Return(1), Rejected(rejection), fs, props, [])
    case Ok(launch) => HandOver(launch, mode, fs, props, startSucceeds)
  }

  /** `main0` past the help check: materialise, load, merge and check, then conclude. */
  function Configure(w: World, options: Options, yaml: Bytes -> Option<Config>): (r: Run)
    ensures r.properties == TerminalProperties(options)
    ensures r.reason == TemplateMissing <==> w.template.None?
    ensures r.reason == TemplateMissing ==> r.completion == Throw && r.events == []
    ensures r.completion == Throw <==> r.reason == TemplateMissing || r.reason == UnknownMode
    ensures r.reason.Rejected? ==> r.completion == Return(1) && r.events == []
    ensures forall e :: e in r.events && e.Start? ==> Usable(r.fs, e.botFile)
    // a started client is the one the mode selects, given the merged bot file and token
    ensures w.template.Some? ==>
              var fs := Prepare(w).value;
              var config := LoadConfig(fs, yaml);
              var res := Resolve(options, config, fs);
              res.Ok? && config.mode.Some?
              ==> r.events == [CreateClient(SelectVariant(config.mode).value), RegisterShutdownHook,
                               Start(res.value.botFile, res.value.token, w.startSucceeds),
                               if w.startSucceeds then Loop else Shutdown]
    ensures r.completion == Return(0) <==> r.reason == LoopEnded
    ensures r.reason == LoopEnded <==> Loop in r.events
    ensures r.completion.Return? ==> r.completion.code == 0 || r.completion.code == 1
  {
    var props := TerminalProperties(options);
    match Prepare(w)
    case Err(_) => Run(Throw, TemplateMissing, w.fs, props, [])
    case Ok(fs) =>
      var config := LoadConfig(fs, yaml);
      Conclude(Resolve(options, config, fs), config.mode, fs, props, w.startSucceeds)
  }

  /** `main0`. The YAML reader `yaml` answers `None` when kbc.yml cannot be parsed. */
  function Bootstrap(w: World, yaml: Bytes -> Option<Config>): (r: Run)
    // a parse failure ends with 1 before anything else happens
    ensures w.commandLine.Malformed? ==> r == Run(Return(1), BadArguments, w.fs, map[], [])
    // --help ends with 0 before any file is written or read and before any client exists
    ensures w.commandLine.Parsed? && w.commandLine.options.help
            ==> r == Run(Return(0), HelpPrinted, w.fs, map[], [])
    // past that point the terminal properties are set, whatever happens later
    ensures w.commandLine.Parsed? && !w.commandLine.options.help
            ==> r.properties == TerminalProperties(w.commandLine.options)
    // a missing template ends the start-up by an escaping error, before any client exists
    ensures r.reason == TemplateMissing
            <==> w.commandLine.Parsed? && !w.commandLine.options.help && w.template.None?
    ensures r.reason == TemplateMissing ==> r.completion == Throw && r.events == []
    // an exception escapes only for a missing template or a missing mode
    ensures r.completion == Throw <==> r.reason == TemplateMissing || r.reason == UnknownMode
    // validation failures return 1 with no client
    ensures r.reason.Rejected? ==> r.completion == Return(1) && r.events == []
    // the client is started only with a usable bot file
    ensures forall e :: e in r.events && e.Start? ==> Usable(r.fs, e.botFile)
    // main0 returns 0 exactly for --help and for a loop that ran to its end
    ensures r.completion == Return(0) <==> r.reason == HelpPrinted || r.reason == LoopEnded
    ensures r.reason == LoopEnded <==> Loop in r.events
    ensures r.completion.Return? ==> r.completion.code == 0 || r.completion.code == 1
  {
    match w.commandLine
    case Malformed => Run(Return(1), BadArguments, w.fs, map[], [])
    case Parsed(options) =>
      if options.help then Run(Return(0), HelpPrinted, w.fs, map[], [])
      else Configure(w, options, yaml)
  }

  /** `main`: the exit status, with every escaping throwable turned into 1. */
  function ExitStatus(r: Run): (code: int)
    // every escaping throwable ends the process with 1
    ensures r.completion == Throw ==> code == 1
    // the process exits with 0 only when main0 returned 0
    ensures code == 0 <==> r.completion == Return(0)
  {
    match r.completion
    case Return(c) => c
    case Throw => 1
  }

  /** The configuration the start-up loads once the working directory is prepared. */
  function LoadedConfig(w: World, yaml: Bytes -> Option<Config>): Config
    requires w.template.Some?
  {
    LoadConfig(Prepare(w).value, yaml)
  }

  /** The start-up reaches the mode check: parsed, no help, a template, and a token and
      bot file that pass validation against the prepared directory. */
  ghost predicate ReachesModeCheck(w: World, yaml: Bytes -> Option<Config>) {
    && w.commandLine.Parsed?
    && !w.commandLine.options.help
    && w.template.Some?
    && Resolve(w.commandLine.options, LoadedConfig(w, yaml), Prepare(w).value).Ok?
  }

  /** The client is created, hooked and started exactly when the mode check is reached
      with a mode present. */
  lemma StartedIff(w: World, yaml: Bytes -> Option<Config>)
    ensures (exists e :: e in Bootstrap(w, yaml).events && e.Start?)
            <==> ReachesModeCheck(w, yaml) && LoadedConfig(w, yaml).mode.Some?
  {
    if ReachesModeCheck(w, yaml) && LoadedConfig(w, yaml).mode.Some? {
      var launch := Resolve(w.commandLine.options, LoadedConfig(w, yaml), Prepare(w).value).value;
      assert Start(launch.botFile, launch.token, w.startSucceeds) in Bootstrap(w, yaml).events;
    }
  }

  /** The client that is started is the one the mode selects, and it is started with the
      bot file and token chosen by the merge: then it either loops or is shut down. */
  lemma StartedWithResolvedValues(w: World, yaml: Bytes -> Option<Config>)
    requires ReachesModeCheck(w, yaml) && LoadedConfig(w, yaml).mode.Some?
    ensures var launch := Resolve(w.commandLine.options, LoadedConfig(w, yaml), Prepare(w).value).value;
            Bootstrap(w, yaml).events
            == [CreateClient(SelectVariant(LoadedConfig(w, yaml).mode).value), RegisterShutdownHook,
                Start(launch.botFile, launch.token, w.startSucceeds),
                if w.startSucceeds then Loop else Shutdown]
  {
  }

  /** The process exits with 0 exactly after --help or after a successful start whose
      loop ran to its end; every other path exits with 1. */
  lemma ExitStatusIff(w: World, yaml: Bytes -> Option<Config>)
    ensures ExitStatus(Bootstrap(w, yaml)) == 0
            <==> (w.commandLine.Parsed? && w.commandLine.options.help)
                 || (ReachesModeCheck(w, yaml) && LoadedConfig(w, yaml).mode.Some? && w.startSucceeds)
    ensures ExitStatus(Bootstrap(w, yaml)) == 0 || ExitStatus(Bootstrap(w, yaml)) == 1
  {
  }

  /** With --help the outcome depends on nothing else: not on the files, the template,
      the configuration or the client. */
  lemma HelpIgnoresEverythingElse(w1: World, w2: World, y1: Bytes -> Option<Config>, y2: Bytes -> Option<Config>)
    requires w1.commandLine.Parsed? && w1.commandLine.options.help
    requires w2.commandLine.Parsed? && w2.commandLine.options.help
    ensures Bootstrap(w1, y1).fs == w1.fs && Bootstrap(w2, y2).fs == w2.fs
    ensures Bootstrap(w1, y1).(fs := w2.fs) == Bootstrap(w2, y2)
  {
  }

  /** The directory the start-up leaves: untouched when the template is missing (the
      error comes before anything is written), otherwise the prepared one, whether the
      start-up then fails validation or not. */
  lemma DirectoryAfterStartup(w: World, yaml: Bytes -> Option<Config>)
    requires w.commandLine.Parsed? && !w.commandLine.options.help
    ensures Bootstrap(w, yaml).fs == if w.template.None? then w.fs else Prepare(w).value
  {
  }

  /** A validation failure is reported as the rejection the merge and the checks produce,
      so the order of the bot-file checks reaches the outcome of the start-up. */
  lemma RejectionReported(w: World, yaml: Bytes -> Option<Config>)
    requires w.commandLine.Parsed? && !w.commandLine.options.help && w.template.Some?
    requires Resolve(w.commandLine.options, LoadedConfig(w, yaml), Prepare(w).value).Err?
    ensures Bootstrap(w, yaml).reason
            == Rejected(Resolve(w.commandLine.options, LoadedConfig(w, yaml), Prepare(w).value).error)
    ensures ExitStatus(Bootstrap(w, yaml)) == 1 && Bootstrap(w, yaml).events == []
  {
  }

  /** A null token is reported before the bot file is looked at and before the mode is:
      neither a bad bot file nor a missing mode changes the verdict. */
  lemma TokenCheckedFirst(w: World, yaml: Bytes -> Option<Config>)
    requires w.commandLine.Parsed? && !w.commandLine.options.help && w.template.Some?
    requires w.commandLine.options.token.None? && !NonEmpty(LoadedConfig(w, yaml).token)
    ensures Bootstrap(w, yaml).reason == Rejected(NoToken)
    ensures ExitStatus(Bootstrap(w, yaml)) == 1 && Bootstrap(w, yaml).events == []
  {
  }

  /** The mode is checked last: an absent mode is reported only once the token and the
      bot file have passed, and then no client is created. */
  lemma ModeCheckedLast(w: World, yaml: Bytes -> Option<Config>)
    ensures Bootstrap(w, yaml).reason == UnknownMode
            <==> ReachesModeCheck(w, yaml) && LoadedConfig(w, yaml).mode.None?
    ensures Bootstrap(w, yaml).reason == UnknownMode
            ==> ExitStatus(Bootstrap(w, yaml)) == 1 && Bootstrap(w, yaml).events == []
  {
  }

  /** On the first run the configuration read is the one the template holds. */
  lemma FirstRunReadsTemplate(w: World, yaml: Bytes -> Option<Config>)
    requires w.template.Some? && !Exists(w.fs, KbcLocal) && w.canWrite
    ensures LoadedConfig(w, yaml) == yaml(w.template.value).GetOr(EmptyConfig)
  {
    var fs1 := SaveKbcConfig(w.fs, w.template, w.canWrite).value;
    assert KbcLocal in fs1 && fs1[KbcLocal] == RegularFile(w.template.value, true);
    assert Prepare(w).value[KbcLocal] == fs1[KbcLocal];
  }

  /** When kbc.yml is absent and cannot be created, nothing is read: every key stays absent. */
  lemma FailedWriteReadsNothing(w: World, yaml: Bytes -> Option<Config>)
    requires w.template.Some? && !Exists(w.fs, KbcLocal) && !w.canWrite
    ensures LoadedConfig(w, yaml) == EmptyConfig
  {
  }

  /** With no arguments and a kbc.yml holding a non-empty token, a usable bot file and a
      mode, the client is started with the file's bot file and token. */
  lemma FileAloneSuffices(w: World, yaml: Bytes -> Option<Config>, config: Config)
    requires w.commandLine == Parsed(Options(None, None, false, false, false))
    requires w.template.Some?
    requires IsFile(w.fs, KbcLocal) && CanRead(w.fs, KbcLocal)
    requires yaml(w.fs[KbcLocal].content) == Some(config)
    requires NonEmpty(config.token) && config.mode.Some?
    requires config.botFile.Some? && Usable(w.fs, config.botFile.value)
    ensures Start(config.botFile.value, config.token.value, w.startSucceeds) in Bootstrap(w, yaml).events
  {
    var fs := Prepare(w).value;
    assert LoadConfig(fs, yaml) == config;
    assert Usable(fs, config.botFile.value);
    var launch := Resolve(w.commandLine.options, config, fs).value;
    assert launch == Launch(config.botFile.value, config.token.value);
    StartedWithResolvedValues(w, yaml);
  }

  /** A configured bot file that does not exist is never selected: without a command-line
      bot file the start-up ends with "not found" once a token exists. */
  lemma MissingConfiguredBotFileRejected(w: World, yaml: Bytes -> Option<Config>)
    requires w.commandLine.Parsed? && !w.commandLine.options.help && w.template.Some?
    requires w.commandLine.options.botFile.None?
    requires w.commandLine.options.token.Some? || NonEmpty(LoadedConfig(w, yaml).token)
    requires LoadedConfig(w, yaml).botFile.None?
             || !Exists(Prepare(w).value, LoadedConfig(w, yaml).botFile.value)
    ensures Bootstrap(w, yaml).reason == Rejected(BotFileNotFound)
    ensures ExitStatus(Bootstrap(w, yaml)) == 1
  {
  }
}
